=== FILE: README.md ===
# Coconut Catching Game — a Dafny model of the game core

This project models the game logic of a small pygame arcade game. The player
moves a basket, with a monkey sprite above it, along the bottom of an
800 by 600 window, jumps with the space key, and catches coconuts that fall
from the top. There are three stages: Noob, Pro and Master. Besides play the
game has a stage-select screen, a four-item pause menu (Resume, Restart,
About Us, Exit) and an About screen.

The whole mutable state of `game.py` is one immutable record, `State.Game`.
Every part of the main loop is a pure function on that record:

- `Wrappers`: the `Option` type, used for "no stage chosen yet".
- `Geometry`: integer rectangles with pygame's `collidepoint` and
  `colliderect` semantics. A point on the right or bottom edge is outside.
  Rectangles that only touch along an edge do not collide.
- `Config`: the constants. This covers the window, the sprite boxes, the
  base lines, the jump impulse and gravity, the spawn range, the stages and
  their spawn intervals, and the pause menu.
- `State`: the `Game` record, the initial state, `reset_game`, the derived
  mode (stage select, playing, paused, about) and the invariant every
  reachable state keeps.
- `Physics`: steering, and the discrete jump with impulse -15, gravity +1
  and a landing clamp. The monkey moves in lockstep with the basket.
- `Coconuts`: the per-frame sweep. Each coconut is advanced, then caught,
  escaped or kept. The module also has a reference count of each fate, the
  in-place loop exactly as the game writes it (using `list.remove`), and
  the spawn position.
- `Events`: quit, Escape, Up, Down, Return, left clicks on the stage
  buttons or the pause menu, and the spawn timer.
- `Frame`: one iteration of the main loop. It runs the update half
  (skipped while the About screen is shown) and then the frame's events
  in order.

The game draws random numbers in three places. Spawning draws an x in
[40, 740]. On the Master stage, each coconut draws a fall speed in [20, 40]
on every frame. Both are inputs here. The third draw, a speed in [18, 30]
in `reset_game` (game.py:166), is never read, so it is not modelled. The spawn x is carried by the
`SpawnTimer` event. The speeds are the `samples` of a frame, one per live
coconut. On the other stages the samples are not read. The pointer's x, the
held keys and the event queue are inputs too.

The pause-menu cursor has the type `Config.MenuIndex`, the integers 0 to 3.
Every update of the cursor must be proven to stay in that range: the `% 4`
of Up and Down, and the item index of a click.

## Model

| member | source | states |
|---|---|---|
| Geometry.CollideRectIffSharedPixel | game.py:223-228 | For boxes of positive size, the basket/coconut overlap test holds exactly when some pixel lies inside both boxes under the half-open point test. |
| Geometry.TouchingEdgesDoNotCollide | game.py:228 | Boxes that only touch along an edge are not a catch. |
| Geometry.ContainedCollides | game.py:228 | A coconut box lying inside the basket box is a catch. |
| Geometry.CollideRectSymmetric | game.py:228 | The overlap test does not depend on which box is tested against which. |
| Config.StageAt | game.py:272-274 | The i-th stage button selects the stage with index i. |
| Config.SpawnInterval | game.py:67 | Every stage's spawn interval is a positive number of milliseconds. |
| Config.HarderStagesSpawnFaster | game.py:67 | A harder stage has a strictly shorter spawn interval. |
| State.Reset | game.py:150-168 | `reset_game` puts the player in a game with score 0, no coconuts, the catcher at x 400, and basket and monkey at rest on their base lines. It arms the timer with the stage's interval and leaves pause, about, running, the chosen stage and the menu cursor unchanged. |
| State.Init | game.py:57-94 | The loop starts in stage select and running, with no stage, score 0, no coconuts, the cursor on Resume, the catcher at x 400 at rest, and the timer at 1500 ms. InitInv states the invariant for it. |
| State.ResetIdempotent | game.py:150-168 | Resetting twice with one stage gives the same state as resetting once: the session depends only on the stage. |
| State.ResetInv | game.py:150-168 | A reset from a state that already holds the stage gives a state that satisfies the invariant. |
| State.InitInv | game.py:57-92 | The initial state is in stage select and satisfies the invariant. |
| State.ModeMatchesFlags | game.py:58-60 | Under the invariant the flags give exactly one mode. `paused` means Paused, `show_about` means About, and not `in_game` means stage select. |
| Physics.Steer | game.py:183-189 | The key nudge and its clamp are overwritten by the pointer's x. The catcher's x becomes the pointer's x whatever keys are held. |
| Physics.TriggerJump | game.py:190-192 | Space starts a jump with velocity -15 only from the ground. While airborne the trigger changes nothing. |
| Physics.JumpTick | game.py:194-202 | A jump frame never leaves the basket below its base line. The catcher stays airborne exactly when the basket's next y, old y plus the gravity-updated velocity, is still above the base line. A landing leaves the catcher at rest. An airborne frame adds gravity to the velocity and the velocity to y. The monkey stays in lockstep. Play state is untouched. |
| Physics.JumpFramePreservesInv | game.py:190-202 | A trigger followed by a jump frame keeps the jump invariant: at or above the base line, in lockstep, at rest when not jumping. |
| Physics.JumpArc | game.py:190-202 | n frames after a jump from rest (n <= 28), the catcher is airborne with velocity -15 + n at height n(29 - n)/2. |
| Physics.JumpLandsAfter29Frames | game.py:190-202 | A jump from rest is airborne for frames 1 to 28 and lands exactly on the base line on frame 29. |
| Coconuts.Speeds | game.py:214-220 | Each frame speed is non-negative and at most 40, and it is positive once a stage is chosen. There is one speed per coconut. |
| Coconuts.FallSpeed | game.py:214-220 | A coconut falls 5 on Noob and 10 on Pro, by its own sample on Master, and not at all with no stage. Speeds lists these per coconut. |
| Coconuts.FateOf | game.py:228-234 | A coconut is caught exactly when its box overlaps the basket's. Otherwise it escapes exactly when y > 600, and otherwise it is kept. FateIndicesPartition shows each coconut gets one fate. |
| Coconuts.SweepCoconuts | game.py:213-234 | Every coconut left by the sweep is neither overlapping the basket nor past the window. Survivors and catches together number at most the snapshot. |
| Coconuts.SweepStep | game.py:222-234 | One more coconut extends the sweep by its fate: a catch adds one to the count, an escape adds nothing, a kept coconut is appended advanced. |
| Coconuts.FateIndicesPartition | game.py:228-234 | Caught, escaped and kept positions partition the snapshot, so no coconut is both caught and escaped. |
| Coconuts.SweepCounts | game.py:213-234 | On every prefix of the snapshot, the sweep's catches and survivors equal the reference counts of positions whose advanced coconut is caught or kept. |
| Coconuts.SweepPartition | game.py:213-234 | Catches plus escapes plus survivors equal the snapshot size, and each count matches the reference count. |
| Coconuts.SweepKeptMembership | game.py:213-234 | A coconut survives exactly when it is the advanced form of a snapshot coconut that was neither caught nor escaped. |
| Coconuts.SweepIsFilter | game.py:213-234 | The survivors are exactly the snapshot advanced and filtered to the Kept fate, read front to back. That fixes order and multiplicity too. |
| Coconuts.SweepKeepsBounds | game.py:222-234 | With non-negative speeds the survivors stay inside the live bounds: spawn column range, and between the spawn row and the bottom of the window. |
| Coconuts.RemoveFirst | game.py:229 | `list.remove` removes exactly one element. |
| Coconuts.RemoveFirstAt | game.py:229-232 | When the value does not occur before a position, `list.remove` deletes the element at that position. |
| Coconuts.InPlaceStep | game.py:214-232 | After i coconuts, overwriting the i-th with its advanced form leaves it in the list. Removing it by value, unless it is kept, gives the survivors after i + 1 followed by the untouched rest. The catch count grows by one exactly for a catch. |
| Coconuts.VisitCoconut | game.py:214-232 | One pass of the loop body takes the list and catch count after i coconuts to those after i + 1. |
| Coconuts.SweepInPlace | game.py:213-234 | The game's loop over a snapshot computes the same survivors and catch count as the sweep. It mutates each coconut in place and removes by value. |
| Coconuts.Noob129thUpdateEscapes | game.py:215-231 | This is the catch side of the Noob lifetime. At y -40 + 5n an uncaught coconut escapes exactly when n is 129. On update 129 (y 605) no basket at or above its base line can catch it. |
| Coconuts.NoobCoconutLifetime | game.py:189-234 | Start from a single Noob coconut spawned at y -40, and sweep the live list frame after frame, each frame against its own basket position. Suppose frame k's basket misses the coconut at y -40 + 5k. After updates 1 to 128 the list is exactly that coconut at y -40 + 5n. After update 129 the list is empty. |
| Coconuts.Spawned | game.py:296-297 | A spawned coconut starts at y -40 at the drawn x, inside the live bounds. |
| Events.StageHit | game.py:271-276 | A click selects a stage exactly when it is inside one of the three stage buttons, and the selected button is under the click. |
| Events.MenuHitFrom | game.py:278-281 | The menu item found is under the click. No item is found exactly when the click misses every item. |
| Events.MenuItemsDisjoint | game.py:279-281 | No point is in two pause-menu item boxes. |
| Events.StageButtonsOutsideMenu | game.py:53-55 | A click on a stage button misses every pause-menu item. |
| Events.StageButtonsDisjoint | game.py:53 | No point is in two stage buttons. |
| Events.Choose | game.py:257-268 | A menu choice keeps the stage and the cursor and never leaves a game. Every choice but Exit unpauses. Exit only stops the loop. Resume changes only the pause flag. About Us changes only the pause and About flags. The score is kept or reset to 0. ResumeIsEscape and AboutUsThenEscapeRestores pin both against Escape. |
| Events.ResumeIsEscape | game.py:245-260 | From the pause menu, Return on Resume and Escape both give the same state with only the pause cleared. |
| Events.AboutUsThenEscapeRestores | game.py:246-266 | Choosing About Us from the pause menu and then pressing Escape returns exactly the state before. |
| Events.ChooseFromPaused | game.py:258-268 | From the pause menu, Resume and Restart lead to play, About Us to the About screen, and Exit stays paused and stops the loop. The invariant is kept. |
| Events.MenuClicksActivatesHit | game.py:277-293 | The click loop, which tests every item with no break, activates exactly the one item under the click, or none. |
| Events.ClickActivatesMenuItem | game.py:277-293 | A left click while paused selects the item under it and activates it, or changes nothing. |
| Events.MenuClicks | game.py:277-293 | The click loop never changes the stage, never ends a game, never restarts a stopped loop, and changes nothing when the click misses every item. The score is kept or reset to 0. MenuClicksActivatesHit gives the exact result. |
| Events.Click | game.py:270-293 | Before a game, a click on a stage button chooses that stage and starts a fresh session, and a click elsewhere does nothing. During play a click does nothing. In a game the stage never changes. The score is kept or reset to 0. |
| Events.KeyPress | game.py:244-268 | Keys never change the stage or end a game. Other keys, and any key but Escape outside the pause menu, change nothing. Before a game every key does nothing. The score is kept or reset to 0. CursorWraps and EscapeSemantics give the details. |
| Events.SpawnTick | game.py:295-297 | A spawn event appends exactly one coconut at (x, -40) when playing. In every other mode it changes nothing. |
| Events.HandleEvent | game.py:240-297 | Quit clears running. Unhandled events and non-left clicks change nothing. No event ends a game, changes its stage or restarts a stopped loop. The score is kept or reset to 0. EventPreservesInv and ModeTransitions give the rest. |
| Events.CursorWraps | game.py:252-256 | Down from the last item goes to the first and Up from the first goes to the last. Up then Down, or Down then Up, restores the state. |
| Events.EscapeSemantics | game.py:245-250 | Escape returns from About to the pause menu, not to play. In a game it toggles pause. Before any game it changes nothing. |
| Events.RestartKeepsStage | game.py:261-263 | Restart keeps the stage, starts a fresh session (score 0, no coconuts, catcher at rest) and unpauses. |
| Events.InGameIsPermanent | game.py:271-293 | Once a game has started, no event ends it or changes its stage. A left click on a stage button leaves the whole state unchanged, whether playing, paused or on the About screen. |
| Events.RunningNeverRestored | game.py:241-242 | Once `running` is cleared, no event sets it again. |
| Events.EventPreservesInv | game.py:240-297 | Every event keeps the invariant. `paused` and `show_about` are never both set, and either one implies a game. A game has a stage and a timer armed for it. Jump and coconut bounds hold. |
| Events.ModeTransitions | game.py:240-297 | Stage select is left only by a stage click, into play. Pause is entered only by Escape from play or About. About is entered only from the pause menu via About Us. Play is left only by Escape into pause. No event returns to stage select. |
| Events.PauseMenuWalkthrough | game.py:245-266 | Escape from play pauses with the cursor unchanged. Down twice reaches About Us, and Return opens the About screen. |
| Frame.Update | game.py:174-234 | The update half of a frame never lowers the score and never changes the mode flags or the stage. Outside play it leaves coconuts and score alone. On the About screen it changes nothing. |
| Frame.UpdateScoresCatches | game.py:212-234 | While playing, the catcher follows the pointer. The score rises by exactly the number of snapshot coconuts that overlap the basket after moving. The survivors are exactly the advanced coconuts that were neither caught nor escaped. |
| Frame.UpdatePreservesInv | game.py:182-234 | The update half of a frame keeps the invariant. |
| Frame.HandleEventsPreserves | game.py:240-297 | Any run of events keeps the invariant, never ends a game or changes its stage, and never restarts a stopped loop. |
| Frame.StepPreservesInv | game.py:174-300 | A whole frame keeps the invariant, never leaves a started game or changes its stage, and never restarts a stopped loop. |
| Frame.HandleEventsScore | game.py:240-297 | Events leave the score unchanged or reset it to 0. They never raise it and never lower it to anything else. |
| Frame.HandleEvents | game.py:240-297 | Events are handled in queue order. No run of them ends a game, changes its stage or restarts a stopped loop, and no events leave the state alone. HandleEventsPreserves gives the invariant. |
| Frame.Step | game.py:174-300 | A frame is the update, then the events. It never leaves a game, never changes the stage and never restarts a stopped loop. With no events it never lowers the score, and on the About screen it changes nothing. StepPreservesInv gives the invariant. |
| Frame.JumpIgnoresPause | game.py:182-202 | While paused, for any pointer and any held keys, an update is exactly one jump frame: an airborne catcher still moves and a grounded one stays put. |

Three behaviours of the code are easy to miss:

- On Master, each coconut's fall speed is drawn from [20, 40] on every frame
  (game.py:220). The [18, 30] draw in `reset_game` (game.py:166) stores a
  value that is never read.
- The jump block (game.py:194) checks only `is_jumping`, so a jump keeps
  moving while paused.
- The score is 0 before any game starts (game.py:62).

## Left out

- Rendering is not modelled: backgrounds, grass, score text, the stage selector, the pause menu, the About screen and hover colours. It has no effect on the state.
- Image loading and its error exit (game.py:13-21) are not modelled. They are file I/O done before the loop starts.
- `scale_background` and sprite scaling (game.py:23-38) are not modelled. Only the scaled sizes are used, as constants (basket 120x80, coconut 40x40).
- The pygame event queue, `set_timer`, `clock.tick(60)`, `display.flip` and `pygame.quit` are platform plumbing and are not modelled. The spawn timer appears only as the interval the state arms it with, plus explicit `SpawnTimer` events. Events arrive as a sequence per frame.
- `random.randint` is not modelled. Its results are parameters, constrained to their ranges.
- `pygame.Rect` itself is not modelled. `collidepoint` and `colliderect` are restated as integer predicates.
- The `coconut_speed` assignment in `reset_game` (game.py:161-166) is not modelled, because no code reads that variable.
- The outer `while running` loop is not modelled. `Frame.Step` is one iteration. A cleared `running` is recorded, and the events left in that frame are still handled, as in the game.
- Geometry.CollideRectIffSharedPixel: does not model pygame's special treatment of zero-size or negative-size rectangles, because every box in the game has a fixed positive size.
- Coconuts.RemoveFirst: requires the value to be present instead of modelling the `ValueError` of `list.remove`. Coconuts.SweepInPlace shows the value is always present.
- Events.Choose: Restart with no stage chosen would raise inside `reset_game`. This is modelled as the loop stopping. The invariant rules the case out.
- Python integers are unbounded, so no integer width or wrap-around applies.

=== FILE: coconuts.dfy ===
/**
 * The per-frame coconut update: every coconut of the frame's snapshot is
 * advanced by its fall speed and then is caught (removed, score + 1),
 * escapes (removed once below the window) or is kept.
 */
module Coconuts {

  import opened Wrappers
  import opened Config
  import opened Geometry
  import opened State

  /**
   * The fall speed of a coconut for one frame: fixed for Noob and Pro,
   * the coconut's own random sample for Master, zero with no stage chosen.
   */
  function FallSpeed(stage: Option<Stage>, sample: int): (speed: int)
    ensures stage.None? ==> speed == 0
    ensures stage == Some(Master) ==> speed == sample
    ensures stage.Some? && stage != Some(Master) ==> speed == 5 * (StageIndex(stage.value) + 1)
  {
    match stage
    case None => 0
    case Some(Noob) => 5
    case Some(Pro) => 10
    case Some(Master) => sample
  }

  /** A random speed sample as drawn for the Master stage. */
  predicate ValidSample(sample: int) {
    MasterMinSpeed <= sample <= MasterMaxSpeed
  }

  predicate ValidSamples(samples: seq<int>) {
    forall i :: 0 <= i < |samples| ==> ValidSample(samples[i])
  }

  /** The speeds of one frame, one per coconut of the snapshot. */
  function Speeds(stage: Option<Stage>, samples: seq<int>): (speeds: seq<int>)
    requires ValidSamples(samples)
    ensures |speeds| == |samples|
    ensures forall i :: 0 <= i < |speeds| ==> 0 <= speeds[i] <= MasterMaxSpeed
    ensures stage.Some? ==> forall i :: 0 <= i < |speeds| ==> speeds[i] > 0
  {
    seq(|samples|, i requires 0 <= i < |samples| => FallSpeed(stage, samples[i]))
  }

  /** Moves a coconut straight down. */
  function Advance(c: Coconut, speed: int): Coconut {
    c.(y := c.y + speed)
  }

  /** What happens to a coconut after it has been advanced. */
  datatype Fate = Caught | Escaped | Kept

  /** The catch test comes first, so a caught coconut is never also counted as escaped. */
  function FateOf(basket: Rect, c: Coconut): (f: Fate)
    ensures f == Caught <==> CollideRect(basket, CoconutRect(c))
    ensures f == Escaped <==> !CollideRect(basket, CoconutRect(c)) && c.y > Height
    ensures f == Kept <==> !CollideRect(basket, CoconutRect(c)) && c.y <= Height
  {
    if CollideRect(basket, CoconutRect(c)) then Caught
    else if c.y > Height then Escaped
    else Kept
  }

  /** The outcome of one frame's sweep: the surviving coconuts and the number caught. */
  datatype Sweep = Sweep(kept: seq<Coconut>, caught: nat)

  /**
   * The sweep over a snapshot, coconut by coconut in list order: the kept
   * coconuts stay in their relative order, advanced.
   */
  function SweepCoconuts(basket: Rect, cs: seq<Coconut>, speeds: seq<int>): (r: Sweep)
    requires |speeds| == |cs|
    ensures |r.kept| + r.caught <= |cs|
    ensures forall j :: 0 <= j < |r.kept| ==> FateOf(basket, r.kept[j]) == Kept
    decreases |cs|
  {
    if |cs| == 0 then Sweep([], 0)
    else
      var n := |cs| - 1;
      var prev := SweepCoconuts(basket, cs[..n], speeds[..n]);
      var c := Advance(cs[n], speeds[n]);
      match FateOf(basket, c)
      case Caught => Sweep(prev.kept, prev.caught + 1)
      case Escaped => prev
      case Kept => Sweep(prev.kept + [c], prev.caught)
  }

  /** The positions of the snapshot whose coconut meets fate f once advanced: a reference count. */
  function FateIndices(basket: Rect, cs: seq<Coconut>, speeds: seq<int>, f: Fate, n: nat): set<nat>
    requires n <= |cs| == |speeds|
  {
    set i: nat | i < n && FateOf(basket, Advance(cs[i], speeds[i])) == f
  }

  lemma FateIndicesStep(basket: Rect, cs: seq<Coconut>, speeds: seq<int>, f: Fate, n: nat)
    requires n < |cs| == |speeds|
    ensures FateIndices(basket, cs, speeds, f, n + 1) ==
            FateIndices(basket, cs, speeds, f, n)
            + (if FateOf(basket, Advance(cs[n], speeds[n])) == f then {n} else {})
    ensures n !in FateIndices(basket, cs, speeds, f, n)
  {
  }

  /** One more coconut of the snapshot extends the sweep according to its fate. */
  lemma SweepStep(basket: Rect, cs: seq<Coconut>, speeds: seq<int>, n: nat)
    requires n < |cs| == |speeds|
    ensures var prev := SweepCoconuts(basket, cs[..n], speeds[..n]);
            var c := Advance(cs[n], speeds[n]);
            SweepCoconuts(basket, cs[..n + 1], speeds[..n + 1]) ==
              match FateOf(basket, c)
              case Caught => Sweep(prev.kept, prev.caught + 1)
              case Escaped => prev
              case Kept => Sweep(prev.kept + [c], prev.caught)
  {
    assert cs[..n + 1][..n] == cs[..n] && speeds[..n + 1][..n] == speeds[..n];
  }

  /** Extending the prefix by one position adds one to the count of that position's fate only. */
  lemma FateIndicesCardStep(basket: Rect, cs: seq<Coconut>, speeds: seq<int>, f: Fate, n: nat)
    requires n < |cs| == |speeds|
    ensures |FateIndices(basket, cs, speeds, f, n + 1)| ==
            |FateIndices(basket, cs, speeds, f, n)| + (if FateOf(basket, Advance(cs[n], speeds[n])) == f then 1 else 0)
  {
    FateIndicesStep(basket, cs, speeds, f, n);
  }

  /** Caught, escaped and kept positions partition the first n positions of the snapshot. */
  lemma {:induction false} FateIndicesPartition(basket: Rect, cs: seq<Coconut>, speeds: seq<int>, n: nat)
    requires n <= |cs| == |speeds|
    ensures |FateIndices(basket, cs, speeds, Caught, n)| + |FateIndices(basket, cs, speeds, Escaped, n)|
            + |FateIndices(basket, cs, speeds, Kept, n)| == n
  {
    if n > 0 {
      FateIndicesPartition(basket, cs, speeds, n - 1);
      FateIndicesCardStep(basket, cs, speeds, Caught, n - 1);
      FateIndicesCardStep(basket, cs, speeds, Escaped, n - 1);
      FateIndicesCardStep(basket, cs, speeds, Kept, n - 1);
    }
  }

  /**
   * The sweep counts what the reference counts: the number caught is the
   * number of snapshot coconuts that overlap the basket once advanced, and
   * the number kept is the number that neither overlap nor have fallen
   * past the window.
   */
  lemma {:induction false} SweepCounts(basket: Rect, cs: seq<Coconut>, speeds: seq<int>, n: nat)
    requires n <= |cs| == |speeds|
    ensures SweepCoconuts(basket, cs[..n], speeds[..n]).caught == |FateIndices(basket, cs, speeds, Caught, n)|
    ensures |SweepCoconuts(basket, cs[..n], speeds[..n]).kept| == |FateIndices(basket, cs, speeds, Kept, n)|
  {
    if n > 0 {
      SweepCounts(basket, cs, speeds, n - 1);
      SweepStep(basket, cs, speeds, n - 1);
      FateIndicesCardStep(basket, cs, speeds, Caught, n - 1);
      FateIndicesCardStep(basket, cs, speeds, Kept, n - 1);
    }
  }

  /**
   * Every coconut of the snapshot meets exactly one fate, and the sweep's
   * counts agree with the reference counts over the whole snapshot.
   */
  lemma SweepPartition(basket: Rect, cs: seq<Coconut>, speeds: seq<int>)
    requires |speeds| == |cs|
    ensures SweepCoconuts(basket, cs, speeds).caught == |FateIndices(basket, cs, speeds, Caught, |cs|)|
    ensures |SweepCoconuts(basket, cs, speeds).kept| == |FateIndices(basket, cs, speeds, Kept, |cs|)|
    ensures SweepCoconuts(basket, cs, speeds).caught + |FateIndices(basket, cs, speeds, Escaped, |cs|)|
            + |SweepCoconuts(basket, cs, speeds).kept| == |cs|
  {
    SweepCounts(basket, cs, speeds, |cs|);
    FateIndicesPartition(basket, cs, speeds, |cs|);
    assert cs[..|cs|] == cs && speeds[..|speeds|] == speeds;
  }

  /**
   * A coconut survives the sweep exactly when it is the advanced form of
   * some coconut of the snapshot that was neither caught nor escaped.
   */
  lemma {:induction false} SweepKeptMembership(basket: Rect, cs: seq<Coconut>, speeds: seq<int>, k: Coconut)
    requires |speeds| == |cs|
    ensures k in SweepCoconuts(basket, cs, speeds).kept <==>
            FateOf(basket, k) == Kept && exists i :: 0 <= i < |cs| && Advance(cs[i], speeds[i]) == k
    decreases |cs|
  {
    if |cs| > 0 {
      var n := |cs| - 1;
      var p, q := cs[..n], speeds[..n];
      SweepKeptMembership(basket, p, q, k);
      if FateOf(basket, k) == Kept && exists i :: 0 <= i < |cs| && Advance(cs[i], speeds[i]) == k {
        var i :| 0 <= i < |cs| && Advance(cs[i], speeds[i]) == k;
        if i < n {
          assert Advance(p[i], q[i]) == k;
        }
      }
      if k in SweepCoconuts(basket, p, q).kept {
        var i :| 0 <= i < |p| && Advance(p[i], q[i]) == k;
        assert Advance(cs[i], speeds[i]) == k;
      }
    }
  }

  /**
   * A reference for the survivors, read front to back like a list
   * comprehension: the advanced coconuts whose fate is Kept, in order.
   */
  function KeptFilter(basket: Rect, cs: seq<Coconut>, speeds: seq<int>): seq<Coconut>
    requires |speeds| == |cs|
    decreases |cs|
  {
    if |cs| == 0 then []
    else
      var c := Advance(cs[0], speeds[0]);
      (if FateOf(basket, c) == Kept then [c] else []) + KeptFilter(basket, cs[1..], speeds[1..])
  }

  /** Filtering a concatenation filters each part. */
  lemma {:induction false} KeptFilterAppend(basket: Rect, a: seq<Coconut>, sa: seq<int>, b: seq<Coconut>, sb: seq<int>)
    requires |sa| == |a| && |sb| == |b|
    ensures KeptFilter(basket, a + b, sa + sb) == KeptFilter(basket, a, sa) + KeptFilter(basket, b, sb)
    decreases |a|
  {
    if |a| > 0 {
      assert (a + b)[1..] == a[1..] + b && (sa + sb)[1..] == sa[1..] + sb;
      KeptFilterAppend(basket, a[1..], sa[1..], b, sb);
    } else {
      assert a + b == b && sa + sb == sb;
    }
  }

  /**
   * The sweep's survivors are exactly the filtered, advanced snapshot:
   * same coconuts, same multiplicities, same order.
   */
  lemma {:induction false} SweepIsFilter(basket: Rect, cs: seq<Coconut>, speeds: seq<int>)
    requires |speeds| == |cs|
    ensures SweepCoconuts(basket, cs, speeds).kept == KeptFilter(basket, cs, speeds)
    decreases |cs|
  {
    if |cs| > 0 {
      var n := |cs| - 1;
      SweepIsFilter(basket, cs[..n], speeds[..n]);
      assert cs == cs[..n] + [cs[n]] && speeds == speeds[..n] + [speeds[n]];
      KeptFilterAppend(basket, cs[..n], speeds[..n], [cs[n]], [speeds[n]]);
      assert KeptFilter(basket, [cs[n]], [speeds[n]]) ==
             (if FateOf(basket, Advance(cs[n], speeds[n])) == Kept then [Advance(cs[n], speeds[n])] else []);
    }
  }

  /** Kept coconuts stay inside the live bounds when every speed is non-negative. */
  lemma SweepKeepsBounds(basket: Rect, cs: seq<Coconut>, speeds: seq<int>)
    requires |speeds| == |cs|
    requires CoconutsInv(cs)
    requires forall i :: 0 <= i < |speeds| ==> speeds[i] >= 0
    ensures CoconutsInv(SweepCoconuts(basket, cs, speeds).kept)
  {
    var kept := SweepCoconuts(basket, cs, speeds).kept;
    forall j | 0 <= j < |kept|
      ensures CoconutInv(kept[j])
    {
      SweepKeptMembership(basket, cs, speeds, kept[j]);
    }
  }

  /** Python's `list.remove`: drops the first element equal to v, which must be present. */
  function RemoveFirst(s: seq<Coconut>, v: Coconut): (r: seq<Coconut>)
    requires v in s
    ensures |r| == |s| - 1
  {
    assert s == [s[0]] + s[1..];
    if s[0] == v then s[1..]
    else [s[0]] + RemoveFirst(s[1..], v)
  }

  /** When v does not occur before a given position, `remove` drops the element at that position. */
  lemma {:induction false} RemoveFirstAt(prefix: seq<Coconut>, v: Coconut, suffix: seq<Coconut>)
    requires v !in prefix
    ensures RemoveFirst(prefix + [v] + suffix, v) == prefix + suffix
  {
    var s := prefix + [v] + suffix;
    assert s[|prefix|] == v;
    if |prefix| == 0 {
      assert s == [v] + suffix;
      assert s[1..] == suffix;
    } else {
      var t := prefix[1..] + [v] + suffix;
      assert prefix == [prefix[0]] + prefix[1..];
      assert v != prefix[0] && v !in prefix[1..];
      assert s == [prefix[0]] + t;
      assert s[0] != v && s[1..] == t;
      RemoveFirstAt(prefix[1..], v, suffix);
      assert RemoveFirst(s, v) == [prefix[0]] + (prefix[1..] + suffix);
      assert [prefix[0]] + (prefix[1..] + suffix) == prefix + suffix;
    }
  }

  /** Overwriting the element right after a prefix. */
  lemma ReplaceAfter(prefix: seq<Coconut>, before: Coconut, c: Coconut, suffix: seq<Coconut>)
    ensures (prefix + [before] + suffix)[|prefix| := c] == prefix + [c] + suffix
  {
  }

  /**
   * One iteration of the game's update loop on the list as it stands after
   * i coconuts: overwriting the current coconut with its advanced form and,
   * unless it is kept, removing it by value gives the list after i + 1.
   */
  lemma InPlaceStep(basket: Rect, cs: seq<Coconut>, speeds: seq<int>, i: nat, list: seq<Coconut>)
    requires i < |cs| == |speeds|
    requires list == SweepCoconuts(basket, cs[..i], speeds[..i]).kept + cs[i..]
    ensures var c := Advance(cs[i], speeds[i]);
            var at := |list| - (|cs| - i);
            var prev := SweepCoconuts(basket, cs[..i], speeds[..i]);
            var next := SweepCoconuts(basket, cs[..i + 1], speeds[..i + 1]);
            && 0 <= at < |list|
            && c in list[at := c]
            && (FateOf(basket, c) == Kept ==> list[at := c] == next.kept + cs[i + 1..])
            && (FateOf(basket, c) != Kept ==> RemoveFirst(list[at := c], c) == next.kept + cs[i + 1..])
            && next.caught == prev.caught + (if FateOf(basket, c) == Caught then 1 else 0)
  {
    var kept := SweepCoconuts(basket, cs[..i], speeds[..i]).kept;
    SweepStep(basket, cs, speeds, i);
    var c := Advance(cs[i], speeds[i]);
    assert cs[i..] == [cs[i]] + cs[i + 1..];
    assert list == kept + [cs[i]] + cs[i + 1..];
    ReplaceAfter(kept, cs[i], c, cs[i + 1..]);
    var moved := list[|kept| := c];
    assert moved == kept + [c] + cs[i + 1..];
    assert moved[|kept|] == c;
    if FateOf(basket, c) != Kept {
      assert c !in kept by {
        forall j | 0 <= j < |kept|
          ensures FateOf(basket, kept[j]) == Kept
        {
        }
      }
      RemoveFirstAt(kept, c, cs[i + 1..]);
    }
  }

  /**
   * The body of the game's update loop for the i-th coconut of the snapshot:
   * advance it in place, then remove it by value unless it is kept.
   */
  method VisitCoconut(basket: Rect, cs: seq<Coconut>, speeds: seq<int>, i: nat, list: seq<Coconut>, caught: nat)
    returns (list': seq<Coconut>, caught': nat)
    requires i < |cs| == |speeds|
    requires list == SweepCoconuts(basket, cs[..i], speeds[..i]).kept + cs[i..]
    requires caught == SweepCoconuts(basket, cs[..i], speeds[..i]).caught
    ensures list' == SweepCoconuts(basket, cs[..i + 1], speeds[..i + 1]).kept + cs[i + 1..]
    ensures caught' == SweepCoconuts(basket, cs[..i + 1], speeds[..i + 1]).caught
  {
    var c := Advance(cs[i], speeds[i]);
    var at := |list| - (|cs| - i);
    var fate := FateOf(basket, c);
    InPlaceStep(basket, cs, speeds, i, list);
    list' := list[at := c];
    caught' := caught;
    if fate != Kept {
      list' := RemoveFirst(list', c);
    }
    if fate == Caught {
      caught' := caught' + 1;
    }
  }

  /**
   * The update loop as the game runs it: iterate over a snapshot of the
   * list, advance each coconut in place, and remove a caught or escaped
   * coconut with `list.remove`, which deletes the first element EQUAL to it.
   * No earlier survivor can equal it, because a coconut's fate depends only
   * on its position, so the removal always hits the coconut itself and the
   * loop computes SweepCoconuts.
   */
  method SweepInPlace(basket: Rect, cs: seq<Coconut>, speeds: seq<int>) returns (list: seq<Coconut>, caught: nat)
    requires |speeds| == |cs|
    ensures Sweep(list, caught) == SweepCoconuts(basket, cs, speeds)
  {
    list := cs;
    caught := 0;
    var i := 0;
    while i < |cs|
      invariant 0 <= i <= |cs|
      invariant list == SweepCoconuts(basket, cs[..i], speeds[..i]).kept + cs[i..]
      invariant caught == SweepCoconuts(basket, cs[..i], speeds[..i]).caught
    {
      list, caught := VisitCoconut(basket, cs, speeds, i, list, caught);
      i := i + 1;
    }
    assert cs[..|cs|] == cs && speeds[..|speeds|] == speeds;
  }

  /**
   * The n-th update of an uncaught Noob coconut spawned at the top: it is
   * still on screen for updates 1 to 128 and escapes on update 129, where
   * no basket on or above its base line can reach it any more.
   */
  lemma Noob129thUpdateEscapes(x: int, basket: Rect, n: nat)
    requires basket.y <= BasketBaseY && basket.h == BasketHeight
    requires 1 <= n <= 129
    ensures var c := Coconut(x, SpawnY + FallSpeed(Some(Noob), 0) * n);
            FateOf(basket, c) != Caught ==> (FateOf(basket, c) == Escaped <==> n == 129)
    ensures n == 129 ==> FateOf(basket, Coconut(x, SpawnY + FallSpeed(Some(Noob), 0) * n)) == Escaped
  {
  }

  /**
   * The live list after n Noob frames that start from a single coconut:
   * frame k sweeps what is left with the Noob speed against that frame's
   * basket, baskets[k - 1], since the basket moves between frames.
   */
  function NoobFrames(baskets: seq<Rect>, c: Coconut, n: nat): seq<Coconut>
    requires n <= |baskets|
  {
    if n == 0 then [c]
    else
      var live := NoobFrames(baskets, c, n - 1);
      SweepCoconuts(baskets[n - 1], live, seq(|live|, _ => FallSpeed(Some(Noob), 0))).kept
  }

  /**
   * A Noob coconut spawned at the top whose k-th update never meets that
   * frame's basket at y = -40 + 5k is still live, at y = -40 + 5n, after
   * each of its first 128 updates, and is removed by its 129th.
   */
  lemma {:induction false} NoobCoconutLifetime(baskets: seq<Rect>, x: int, n: nat)
    requires n <= 129 && n <= |baskets|
    requires forall k :: 0 <= k < n ==> !CollideRect(baskets[k], CoconutRect(Coconut(x, SpawnY + 5 * (k + 1))))
    ensures n <= 128 ==> NoobFrames(baskets, Coconut(x, SpawnY), n) == [Coconut(x, SpawnY + 5 * n)]
    ensures n == 129 ==> NoobFrames(baskets, Coconut(x, SpawnY), n) == []
  {
    if n > 0 {
      NoobCoconutLifetime(baskets, x, n - 1);
      var live := NoobFrames(baskets, Coconut(x, SpawnY), n - 1);
      var speeds := seq(|live|, _ => FallSpeed(Some(Noob), 0));
      var c := Coconut(x, SpawnY + 5 * n);
      assert speeds == [5];
      assert live[..0] == [] && speeds[..0] == [];
      assert Advance(live[0], speeds[0]) == c;
      assert !CollideRect(baskets[n - 1], CoconutRect(c));
    }
  }

  /** A spawned coconut: at the top of the window at the sampled x. */
  function Spawned(x: int): (c: Coconut)
    requires SpawnMinX <= x <= SpawnMaxX
    ensures c.x == x && c.y == SpawnY
    ensures CoconutInv(c)
  {
    Coconut(x, SpawnY)
  }
}

=== FILE: config.dfy ===
/**
 * The fixed numbers of the coconut-catching game: window size, sprite
 * boxes, jump constants, the three stages and the four-item pause menu.
 */
module Config {

  const Width := 800
  const Height := 600

  /** Top of the grass strip. */
  const GroundY := Height - 80

  /** The basket sprite is 120 by 80 pixels and hangs 60 pixels left of the catcher's x. */
  const BasketOffsetX := 60
  const BasketWidth := 120
  const BasketHeight := 80
  const BasketBaseY := GroundY - 80

  /** The monkey sprite rests 200 pixels above the ground. */
  const MonkeyBaseY := GroundY - 200

  /** Coconut sprites are 40 by 40 pixels. */
  const CoconutSize := 40

  /** Spawned coconuts start one sprite height above the window, at an x in [SpawnMinX, SpawnMaxX]. */
  const SpawnY := -40
  const SpawnMinX := 40
  const SpawnMaxX := Width - 60

  /** The jump impulse (negative is upwards) and the per-frame gravity. */
  const JumpPower := -15
  const Gravity := 1

  /** Horizontal key nudge and the clamp margin of the key-driven position. */
  const MoveSpeed := 7
  const ClampMargin := 100

  /** The spawn timer's interval before any stage is chosen. */
  const InitialSpawnInterval := 1500

  /** Range of the per-coconut, per-frame speed sample of the Master stage. */
  const MasterMinSpeed := 20
  const MasterMaxSpeed := 40

  /** The three stages, in the order of their buttons: Noob, Pro, Master. */
  datatype Stage = Noob | Pro | Master

  /** The stage whose button is the i-th one from the top. */
  function StageAt(i: int): (s: Stage)
    requires 0 <= i < 3
    ensures StageIndex(s) == i
  {
    if i == 0 then Noob else if i == 1 then Pro else Master
  }

  function StageIndex(s: Stage): int {
    match s
    case Noob => 0
    case Pro => 1
    case Master => 2
  }

  /** The spawn timer interval of each stage, in milliseconds. */
  function SpawnInterval(s: Stage): (ms: int)
    ensures ms > 0
  {
    match s
    case Noob => 1500
    case Pro => 1000
    case Master => 400
  }

  /** The four pause-menu items, in display order. */
  datatype MenuOption = Resume | Restart | AboutUs | Exit

  const MenuCount := 4

  /** A cursor position in the pause menu. */
  type MenuIndex = i: int | 0 <= i < MenuCount

  function OptionAt(i: MenuIndex): MenuOption {
    if i == 0 then Resume else if i == 1 then Restart else if i == 2 then AboutUs else Exit
  }

  /** Harder stages spawn strictly more often. */
  lemma HarderStagesSpawnFaster(s: Stage, t: Stage)
    requires StageIndex(s) < StageIndex(t)
    ensures SpawnInterval(t) < SpawnInterval(s)
  {
  }
}

=== FILE: events.dfy ===
/**
 * The event handlers of the main loop: quit, key presses (escape, menu
 * cursor, confirm), left clicks on the stage buttons or the pause menu,
 * and the spawn timer.
 */
module Events {

  import opened Wrappers
  import opened Config
  import opened Geometry
  import opened State
  import opened Coconuts

  datatype Key = Escape | Up | Down | Return | OtherKey

  /**
   * The events the loop reacts to. A spawn-timer event carries the x its
   * handler draws at random; every other event type is Unhandled.
   */
  datatype Event =
    | Quit
    | KeyDown(key: Key)
    | MouseDown(button: int, px: int, py: int)
    | SpawnTimer(x: int)
    | Unhandled

  /** A spawn x is a draw from [SpawnMinX, SpawnMaxX]. */
  predicate WellFormed(e: Event) {
    e.SpawnTimer? ==> SpawnMinX <= e.x <= SpawnMaxX
  }

  /** The i-th stage button, top to bottom. */
  function StageButton(i: int): Rect {
    Rect(10, 10 + i * 40, 120, 30)
  }

  const PauseMenuRect := Rect(Width / 2 - 200, Height / 2 - 150, 400, 300)

  /** The clickable box of the i-th pause-menu item. */
  function MenuItemRect(i: int): Rect {
    Rect(PauseMenuRect.x + 60, PauseMenuRect.y + 80 + i * 50, 280, 40)
  }

  /** The stage button under a click; the button loop stops at the first hit. */
  function StageHit(px: int, py: int): (r: Option<Stage>)
    ensures r.Some? ==> CollidePoint(StageButton(StageIndex(r.value)), px, py)
    ensures r.None? <==> forall i :: 0 <= i < 3 ==> !CollidePoint(StageButton(i), px, py)
  {
    if CollidePoint(StageButton(0), px, py) then Some(StageAt(0))
    else if CollidePoint(StageButton(1), px, py) then Some(StageAt(1))
    else if CollidePoint(StageButton(2), px, py) then Some(StageAt(2))
    else None
  }

  /** The first menu item from position i on that lies under the click. */
  function MenuHitFrom(px: int, py: int, i: nat): (r: Option<MenuIndex>)
    ensures r.Some? ==> i <= r.value && CollidePoint(MenuItemRect(r.value), px, py)
    ensures r.None? ==> forall j :: i <= j < MenuCount ==> !CollidePoint(MenuItemRect(j), px, py)
    decreases MenuCount - i
  {
    if i >= MenuCount then None
    else if CollidePoint(MenuItemRect(i), px, py) then Some(i)
    else MenuHitFrom(px, py, i + 1)
  }

  function MenuHit(px: int, py: int): Option<MenuIndex> {
    MenuHitFrom(px, py, 0)
  }

  /** Menu item boxes are stacked 50 pixels apart and 40 high, so no point is in two of them. */
  lemma MenuItemsDisjoint(i: int, j: int, px: int, py: int)
    requires i != j
    ensures !(CollidePoint(MenuItemRect(i), px, py) && CollidePoint(MenuItemRect(j), px, py))
  {
  }

  /** Stage buttons are stacked 40 pixels apart and 30 high, so no point is in two of them. */
  lemma StageButtonsDisjoint(i: int, j: int, px: int, py: int)
    requires i != j
    ensures !(CollidePoint(StageButton(i), px, py) && CollidePoint(StageButton(j), px, py))
  {
  }

  /**
   * Carries out a pause-menu choice. Restart rebuilds the session for the
   * current stage; with no stage chosen the game's `spawn_intervals[None]`
   * would raise and end the process, which is modelled as `running` being
   * cleared (the invariant rules this case out).
   */
  function Choose(g: Game, opt: MenuOption): (r: Game)
    ensures r.currentStage == g.currentStage && r.selectedOption == g.selectedOption
    ensures g.inGame ==> r.inGame
    ensures !g.running ==> !r.running
    ensures opt != Exit && g.currentStage.Some? ==> !r.paused && r.running == g.running
    ensures opt == Exit ==> r == g.(running := false)
    ensures opt == Resume ==> !r.paused && r.(paused := g.paused) == g
    ensures opt == AboutUs ==> r.showAbout && !r.paused && r.(showAbout := g.showAbout, paused := g.paused) == g
    ensures r.score == g.score || r.score == 0
  {
    match opt
    case Resume => g.(paused := false)
    case Restart =>
      (match g.currentStage
       case Some(s) => Reset(g, s).(paused := false)
       case None => g.(running := false))
    case AboutUs => g.(showAbout := true, paused := false)
    case Exit => g.(running := false)
  }

  /**
   * The mode each menu choice leads to from the pause menu: Resume and
   * Restart to play, About Us to the about screen, Exit stays paused and
   * stops the loop.
   */
  lemma ChooseFromPaused(g: Game, opt: MenuOption)
    requires Inv(g) && ModeOf(g) == Paused
    ensures Inv(Choose(g, opt))
    ensures ModeOf(Choose(g, opt)) ==
            match opt
            case Resume => Playing
            case Restart => Playing
            case AboutUs => About
            case Exit => Paused
    ensures Choose(g, opt).running <==> g.running && opt != Exit
  {
    if opt == Restart {
      ResetInv(g, g.currentStage.value);
    }
  }

  /**
   * A left click while paused, as the game runs it: every menu item is
   * tested in turn with no break, and a hit selects and activates it.
   */
  function MenuClicks(g: Game, px: int, py: int, i: nat): (r: Game)
    ensures r.currentStage == g.currentStage
    ensures g.inGame ==> r.inGame
    ensures !g.running ==> !r.running
    ensures MenuHitFrom(px, py, i).None? ==> r == g
    ensures r.score == g.score || r.score == 0
    decreases MenuCount - i
  {
    if i >= MenuCount then g
    else
      var next := if CollidePoint(MenuItemRect(i), px, py)
                  then Choose(g.(selectedOption := i), OptionAt(i)) else g;
      MenuClicks(next, px, py, i + 1)
  }

  /**
   * Since the item boxes are disjoint, the loop without a break activates
   * at most one item: the one under the click, if any.
   */
  lemma {:induction false} MenuClicksActivatesHit(g: Game, px: int, py: int, i: nat)
    requires i <= MenuCount
    ensures MenuClicks(g, px, py, i) ==
            match MenuHitFrom(px, py, i)
            case None => g
            case Some(j) => Choose(g.(selectedOption := j), OptionAt(j))
    decreases MenuCount - i
  {
    if i < MenuCount {
      if CollidePoint(MenuItemRect(i), px, py) {
        var next := Choose(g.(selectedOption := i), OptionAt(i));
        forall j | i + 1 <= j < MenuCount
          ensures !CollidePoint(MenuItemRect(j), px, py)
        {
          MenuItemsDisjoint(i, j, px, py);
        }
        MenuClicksActivatesHit(next, px, py, i + 1);
      } else {
        MenuClicksActivatesHit(g, px, py, i + 1);
      }
    }
  }

  /** A left click: stage buttons before any game starts, menu items while paused. */
  function Click(g: Game, px: int, py: int): (r: Game)
    ensures g.inGame ==> r.inGame && r.currentStage == g.currentStage
    ensures !g.running ==> !r.running
    ensures g.inGame && !g.paused ==> r == g
    ensures r.score == g.score || r.score == 0
    ensures !g.inGame && !g.showAbout ==>
              match StageHit(px, py)
              case None => r == g
              case Some(s) => r.currentStage == Some(s) && r.inGame && r.score == 0 && r.coconuts == []
  {
    if !g.inGame && !g.showAbout then
      match StageHit(px, py)
      case None => g
      case Some(s) => Reset(g.(currentStage := Some(s)), s)
    else if g.paused then MenuClicks(g, px, py, 0)
    else g
  }

  /**
   * A key press. Escape leaves the about screen for the pause menu, or
   * toggles pause in a game. Then, while paused, Up and Down move the cursor
   * cyclically and Return activates the item under it.
   */
  function KeyPress(g: Game, k: Key): (r: Game)
    ensures r.currentStage == g.currentStage && (g.inGame ==> r.inGame)
    ensures !g.running ==> !r.running
    ensures k == OtherKey ==> r == g
    ensures r.score == g.score || r.score == 0
    ensures k != Escape && !g.paused ==> r == g
    ensures !g.inGame && !g.showAbout && !g.paused ==> r == g
  {
    var g1 :=
      if k != Escape then g
      else if g.showAbout then g.(showAbout := false, paused := true)
      else if g.inGame then g.(paused := !g.paused)
      else g;
    if !g1.paused then g1
    else
      match k
      case Up => g1.(selectedOption := (g1.selectedOption - 1) % MenuCount)
      case Down => g1.(selectedOption := (g1.selectedOption + 1) % MenuCount)
      case Return => Choose(g1, OptionAt(g1.selectedOption))
      case _ => g1
  }

  /** The spawn timer: one new coconut at the top, only while actually playing. */
  function SpawnTick(g: Game, x: int): (r: Game)
    requires SpawnMinX <= x <= SpawnMaxX
    ensures ModeOf(g) == Playing ==> r == g.(coconuts := g.coconuts + [Coconut(x, SpawnY)])
    ensures ModeOf(g) != Playing ==> r == g
  {
    if g.inGame && !g.paused && !g.showAbout then
      g.(coconuts := g.coconuts + [Spawned(x)])
    else g
  }

  function HandleEvent(g: Game, e: Event): (r: Game)
    requires WellFormed(e)
    ensures g.inGame ==> r.inGame && r.currentStage == g.currentStage
    ensures !g.running ==> !r.running
    ensures e.Quit? ==> r == g.(running := false)
    ensures e.Unhandled? || (e.MouseDown? && e.button != 1) ==> r == g
    ensures r.score == g.score || r.score == 0
  {
    match e
    case Quit => g.(running := false)
    case KeyDown(k) => KeyPress(g, k)
    case MouseDown(button, px, py) => if button == 1 then Click(g, px, py) else g
    case SpawnTimer(x) => SpawnTick(g, x)
    case Unhandled => g
  }

  /**
   * Resume from the pause menu is the same as pressing Escape there: both
   * only clear the pause, so score, coconuts and jump survive.
   */
  lemma ResumeIsEscape(g: Game)
    requires ModeInv(g) && ModeOf(g) == Paused && OptionAt(g.selectedOption) == Resume
    ensures HandleEvent(g, KeyDown(Return)) == g.(paused := false)
    ensures HandleEvent(g, KeyDown(Escape)) == g.(paused := false)
  {
  }

  /** Opening About Us and closing it with Escape returns to the pause menu exactly as it was. */
  lemma AboutUsThenEscapeRestores(g: Game)
    requires ModeInv(g) && ModeOf(g) == Paused
    ensures HandleEvent(Choose(g, AboutUs), KeyDown(Escape)) == g
  {
  }

  /** A click on a menu item while paused selects it and activates it. */
  lemma ClickActivatesMenuItem(g: Game, px: int, py: int)
    requires ModeInv(g) && g.paused
    ensures HandleEvent(g, MouseDown(1, px, py)) ==
            match MenuHit(px, py)
            case None => g
            case Some(j) => Choose(g.(selectedOption := j), OptionAt(j))
  {
    MenuClicksActivatesHit(g, px, py, 0);
  }

  /**
   * The pause-menu cursor wraps: Down from the last item goes to the first,
   * Up from the first goes to the last, and Up then Down (or Down then Up)
   * leaves the state as it was.
   */
  lemma CursorWraps(g: Game)
    requires g.paused
    ensures g.selectedOption == MenuCount - 1 ==> HandleEvent(g, KeyDown(Down)).selectedOption == 0
    ensures g.selectedOption == 0 ==> HandleEvent(g, KeyDown(Up)).selectedOption == MenuCount - 1
    ensures HandleEvent(HandleEvent(g, KeyDown(Up)), KeyDown(Down)) == g
    ensures HandleEvent(HandleEvent(g, KeyDown(Down)), KeyDown(Up)) == g
  {
  }

  /**
   * Escape: from the about screen it returns to the pause menu (not to
   * play), in a game it toggles pause, and before a game it does nothing.
   */
  lemma EscapeSemantics(g: Game)
    requires ModeInv(g)
    ensures var r := HandleEvent(g, KeyDown(Escape));
            && (g.showAbout ==> r == g.(showAbout := false, paused := true) && ModeOf(r) == Paused)
            && (g.inGame && !g.showAbout ==> r == g.(paused := !g.paused))
            && (ModeOf(g) == Playing ==> ModeOf(r) == Paused)
            && (ModeOf(g) == Paused ==> ModeOf(r) == Playing)
            && (!g.inGame ==> r == g)
  {
  }

  /** Restart from the pause menu keeps the stage, starts a fresh session and unpauses. */
  lemma RestartKeepsStage(g: Game)
    requires Inv(g) && ModeOf(g) == Paused && OptionAt(g.selectedOption) == Restart
    ensures var r := HandleEvent(g, KeyDown(Return));
            && r == Reset(g, g.currentStage.value).(paused := false)
            && r.currentStage == g.currentStage
            && r.score == 0 && r.coconuts == [] && AtRest(r)
            && ModeOf(r) == Playing
  {
  }

  /** The stage buttons lie left of the pause menu, so a click on one misses every menu item. */
  lemma StageButtonsOutsideMenu(i: int, px: int, py: int)
    requires 0 <= i < 3 && CollidePoint(StageButton(i), px, py)
    ensures MenuHit(px, py).None?
  {
  }

  /**
   * Once in a game, no event ends it or changes the stage, and a left click
   * on a stage button leaves the whole state unchanged.
   */
  lemma InGameIsPermanent(g: Game, e: Event)
    requires WellFormed(e)
    requires g.inGame
    ensures HandleEvent(g, e).inGame
    ensures HandleEvent(g, e).currentStage == g.currentStage
    ensures e.MouseDown? && e.button == 1 && (exists i :: 0 <= i < 3 && CollidePoint(StageButton(i), e.px, e.py))
            ==> HandleEvent(g, e) == g
  {
    if e.MouseDown? && e.button == 1 && g.paused {
      MenuClicksActivatesHit(g, e.px, e.py, 0);
      if exists i :: 0 <= i < 3 && CollidePoint(StageButton(i), e.px, e.py) {
        var i :| 0 <= i < 3 && CollidePoint(StageButton(i), e.px, e.py);
        StageButtonsOutsideMenu(i, e.px, e.py);
      }
    }
  }

  /** Nothing sets `running` again once it is cleared. */
  lemma RunningNeverRestored(g: Game, e: Event)
    requires WellFormed(e)
    requires !g.running
    ensures !HandleEvent(g, e).running
  {
    if e.MouseDown? && e.button == 1 && g.paused {
      MenuClicksActivatesHit(g, e.px, e.py, 0);
    }
  }

  /** Every handled event keeps the invariant. */
  lemma EventPreservesInv(g: Game, e: Event)
    requires WellFormed(e)
    requires Inv(g)
    ensures Inv(HandleEvent(g, e))
  {
    match e
    case MouseDown(button, px, py) =>
      if button == 1 {
        if !g.inGame && !g.showAbout {
          var hit := StageHit(px, py);
          if hit.Some? {
            ResetInv(g.(currentStage := hit), hit.value);
          }
        } else if g.paused {
          ClickActivatesMenuItem(g, px, py);
          var hit := MenuHit(px, py);
          if hit.Some? {
            ChooseFromPaused(g.(selectedOption := hit.value), OptionAt(hit.value));
          }
        }
      }
    case KeyDown(k) =>
      var g1 := if k != Escape then g
                else if g.showAbout then g.(showAbout := false, paused := true)
                else if g.inGame then g.(paused := !g.paused)
                else g;
      if g1.paused && k == Return {
        ChooseFromPaused(g1, OptionAt(g1.selectedOption));
      }
    case SpawnTimer(x) =>
      var r := HandleEvent(g, e);
      if ModeOf(g) == Playing {
        assert r.coconuts == g.coconuts + [Spawned(x)];
        assert forall i :: 0 <= i < |r.coconuts| ==> CoconutInv(r.coconuts[i]) by {
          forall i | 0 <= i < |r.coconuts|
            ensures CoconutInv(r.coconuts[i])
          {
            if i < |g.coconuts| {
              assert r.coconuts[i] == g.coconuts[i];
            }
          }
        }
      }
    case _ =>
  }

  /**
   * The mode machine's transition table, read backwards: which event and
   * which mode can lead into each mode.
   */
  lemma ModeTransitions(g: Game, e: Event)
    requires WellFormed(e)
    requires Inv(g)
    ensures var r := HandleEvent(g, e);
            && (ModeOf(r) == StageSelect ==> ModeOf(g) == StageSelect)
            && (ModeOf(g) == StageSelect && ModeOf(r) != StageSelect ==>
                  && e.MouseDown? && e.button == 1 && StageHit(e.px, e.py).Some?
                  && r == Reset(g.(currentStage := StageHit(e.px, e.py)), StageHit(e.px, e.py).value)
                  && ModeOf(r) == Playing)
            && (ModeOf(r) == Paused && ModeOf(g) != Paused ==>
                  e == KeyDown(Escape) && (ModeOf(g) == Playing || ModeOf(g) == About))
            && (ModeOf(r) == About && ModeOf(g) != About ==>
                  && ModeOf(g) == Paused
                  && (|| (e == KeyDown(Return) && OptionAt(g.selectedOption) == AboutUs)
                      || (e.MouseDown? && e.button == 1 && MenuHit(e.px, e.py) == Some(2))))
            && (ModeOf(g) == Playing && ModeOf(r) != Playing ==>
                  e == KeyDown(Escape) && ModeOf(r) == Paused)
  {
    if e.MouseDown? && e.button == 1 && g.paused {
      ClickActivatesMenuItem(g, e.px, e.py);
      var hit := MenuHit(e.px, e.py);
      if hit.Some? {
        ChooseFromPaused(g.(selectedOption := hit.value), OptionAt(hit.value));
      }
    }
    if e.KeyDown? && g.paused && e.key == Return {
      ChooseFromPaused(g, OptionAt(g.selectedOption));
    }
  }

  /**
   * From play: Escape pauses with the cursor where it was, Down twice moves
   * it to About Us, and Return opens the about screen.
   */
  lemma PauseMenuWalkthrough(g: Game)
    requires Inv(g) && ModeOf(g) == Playing && g.selectedOption == 0
    ensures var p := HandleEvent(g, KeyDown(Escape));
            var d := HandleEvent(HandleEvent(p, KeyDown(Down)), KeyDown(Down));
            && ModeOf(p) == Paused && p.selectedOption == 0
            && d.selectedOption == 2
            && ModeOf(HandleEvent(d, KeyDown(Return))) == About
  {
  }
}

=== FILE: frame.dfy ===
/**
 * One iteration of the main loop: the physics and coconut update of the
 * frame (skipped while the about screen is shown), followed by the frame's
 * events in queue order.
 */
module Frame {

  import opened Wrappers
  import opened Config
  import opened Geometry
  import opened State
  import opened Physics
  import opened Coconuts
  import opened Events

  /**
   * What the platform supplies for one frame: the pointer's x, the held
   * movement and jump keys, one Master speed sample per live coconut, and
   * the queued events.
   */
  datatype FrameInput = FrameInput(
    pointerX: int,
    left: bool,
    right: bool,
    space: bool,
    samples: seq<int>,
    events: seq<Event>)

  predicate EventsWellFormed(events: seq<Event>) {
    forall i :: 0 <= i < |events| ==> WellFormed(events[i])
  }

  /**
   * The update half of a frame. While playing, the catcher follows the
   * pointer and may start a jump; the jump advances whenever it is under
   * way, even while paused; then, while playing, every coconut falls and is
   * caught, escapes or is kept.
   */
  function Update(g: Game, pointerX: int, left: bool, right: bool, space: bool, samples: seq<int>): (r: Game)
    requires |samples| == |g.coconuts| && ValidSamples(samples)
    ensures r.score >= g.score
    ensures r.inGame == g.inGame && r.paused == g.paused && r.showAbout == g.showAbout
    ensures r.running == g.running && r.currentStage == g.currentStage
    ensures ModeOf(g) != Playing ==> r.coconuts == g.coconuts && r.score == g.score
    ensures g.showAbout ==> r == g
  {
    if g.showAbout then g
    else
      var g1 := if g.inGame && !g.paused then TriggerJump(Steer(g, left, right, pointerX), space) else g;
      var g2 := JumpTick(g1);
      if g2.inGame && !g2.paused then
        var sweep := SweepCoconuts(BasketRect(g2), g2.coconuts, Speeds(g2.currentStage, samples));
        g2.(coconuts := sweep.kept, score := g2.score + sweep.caught)
      else g2
  }

  /**
   * While playing, the score rises by exactly the number of coconuts of
   * the snapshot that overlap the basket once advanced, and the surviving
   * coconuts are exactly the advanced ones that were neither caught nor
   * escaped.
   */
  lemma UpdateScoresCatches(g: Game, pointerX: int, left: bool, right: bool, space: bool, samples: seq<int>)
    requires |samples| == |g.coconuts| && ValidSamples(samples)
    requires ModeOf(g) == Playing
    ensures var r := Update(g, pointerX, left, right, space, samples);
            var basket := BasketRect(JumpTick(TriggerJump(g.(unitX := pointerX), space)));
            var speeds := Speeds(g.currentStage, samples);
            && r.unitX == pointerX
            && r.score == g.score + |FateIndices(basket, g.coconuts, speeds, Caught, |g.coconuts|)|
            && |r.coconuts| == |FateIndices(basket, g.coconuts, speeds, Kept, |g.coconuts|)|
            && r.coconuts == KeptFilter(basket, g.coconuts, speeds)
            && (forall k :: k in r.coconuts <==>
                  FateOf(basket, k) == Kept && exists i :: 0 <= i < |g.coconuts| && Advance(g.coconuts[i], speeds[i]) == k)
  {
    var basket := BasketRect(JumpTick(TriggerJump(g.(unitX := pointerX), space)));
    var speeds := Speeds(g.currentStage, samples);
    SweepPartition(basket, g.coconuts, speeds);
    SweepIsFilter(basket, g.coconuts, speeds);
    forall k
      ensures k in Update(g, pointerX, left, right, space, samples).coconuts <==>
              FateOf(basket, k) == Kept && exists i :: 0 <= i < |g.coconuts| && Advance(g.coconuts[i], speeds[i]) == k
    {
      SweepKeptMembership(basket, g.coconuts, speeds, k);
    }
  }

  /** The update half of a frame keeps the invariant. */
  lemma UpdatePreservesInv(g: Game, pointerX: int, left: bool, right: bool, space: bool, samples: seq<int>)
    requires |samples| == |g.coconuts| && ValidSamples(samples)
    requires Inv(g)
    ensures Inv(Update(g, pointerX, left, right, space, samples))
  {
    if !g.showAbout {
      var g1 := if g.inGame && !g.paused then TriggerJump(Steer(g, left, right, pointerX), space) else g;
      var g2 := JumpTick(g1);
      assert JumpInv(g2) by {
        if g.inGame && !g.paused {
          JumpFramePreservesInv(Steer(g, left, right, pointerX), space);
        } else {
          JumpFramePreservesInv(g, false);
        }
      }
      if g2.inGame && !g2.paused {
        SweepKeepsBounds(BasketRect(g2), g2.coconuts, Speeds(g2.currentStage, samples));
      }
    }
  }

  /** The frame's events, handled in queue order. */
  function HandleEvents(g: Game, events: seq<Event>): (r: Game)
    requires EventsWellFormed(events)
    ensures g.inGame ==> r.inGame && r.currentStage == g.currentStage
    ensures !g.running ==> !r.running
    ensures events == [] ==> r == g
    decreases |events|
  {
    if |events| == 0 then g
    else HandleEvents(HandleEvent(g, events[0]), events[1..])
  }

  /** A whole frame: the update, then the events. */
  function Step(g: Game, input: FrameInput): (r: Game)
    requires |input.samples| == |g.coconuts| && ValidSamples(input.samples)
    requires EventsWellFormed(input.events)
    ensures g.inGame ==> r.inGame && r.currentStage == g.currentStage
    ensures !g.running ==> !r.running
    ensures g.showAbout && input.events == [] ==> r == g
    ensures input.events == [] ==> r.score >= g.score
  {
    HandleEvents(Update(g, input.pointerX, input.left, input.right, input.space, input.samples), input.events)
  }

  /**
   * Properties that hold across any run of events: the invariant is kept,
   * a started game never ends, its stage never changes, and a cleared
   * `running` stays cleared.
   */
  lemma {:induction false} HandleEventsPreserves(g: Game, events: seq<Event>)
    requires EventsWellFormed(events)
    requires Inv(g)
    ensures Inv(HandleEvents(g, events))
    ensures g.inGame ==> HandleEvents(g, events).inGame && HandleEvents(g, events).currentStage == g.currentStage
    ensures !g.running ==> !HandleEvents(g, events).running
    decreases |events|
  {
    if |events| > 0 {
      EventPreservesInv(g, events[0]);
      if g.inGame {
        InGameIsPermanent(g, events[0]);
      }
      if !g.running {
        RunningNeverRestored(g, events[0]);
      }
      HandleEventsPreserves(HandleEvent(g, events[0]), events[1..]);
    }
  }

  /**
   * Every frame keeps the invariant: paused and show_about are never both
   * set and either implies a game, the basket never ends a frame below its
   * base line and the monkey moves with it, and every live coconut is within
   * its spawn column range and not yet past the window. A started game is
   * never left and its stage never changes; a stopped loop stays stopped.
   */
  lemma StepPreservesInv(g: Game, input: FrameInput)
    requires |input.samples| == |g.coconuts| && ValidSamples(input.samples)
    requires EventsWellFormed(input.events)
    requires Inv(g)
    ensures Inv(Step(g, input))
    ensures g.inGame ==> Step(g, input).inGame && Step(g, input).currentStage == g.currentStage
    ensures !g.running ==> !Step(g, input).running
  {
    UpdatePreservesInv(g, input.pointerX, input.left, input.right, input.space, input.samples);
    HandleEventsPreserves(Update(g, input.pointerX, input.left, input.right, input.space, input.samples), input.events);
  }

  /** Events never lower the score; only a restart or a stage choice resets it to zero. */
  lemma {:induction false} HandleEventsScore(g: Game, events: seq<Event>)
    requires EventsWellFormed(events)
    ensures HandleEvents(g, events).score == g.score || HandleEvents(g, events).score == 0
    decreases |events|
  {
    if |events| > 0 {
      var h := HandleEvent(g, events[0]);
      assert h.score == g.score || h.score == 0 by {
        var e := events[0];
        if e.MouseDown? && e.button == 1 && g.paused && !(!g.inGame && !g.showAbout) {
          MenuClicksActivatesHit(g, e.px, e.py, 0);
        }
      }
      HandleEventsScore(h, events[1..]);
    }
  }

  /**
   * The jump block is guarded only by `is_jumping`: while paused, an
   * airborne catcher still moves one jump frame per update, a grounded one
   * stays put, and the pointer and the held keys are ignored.
   */
  lemma JumpIgnoresPause(g: Game, pointerX: int, left: bool, right: bool, space: bool, samples: seq<int>)
    requires ModeInv(g) && g.paused
    requires |samples| == |g.coconuts| && ValidSamples(samples)
    ensures Update(g, pointerX, left, right, space, samples) == JumpTick(g)
  {
  }
}

=== FILE: geometry.dfy ===
/**
 * Integer rectangles with the hit-test semantics of pygame's Rect:
 * `collidepoint` treats the left and top edges as inside and the right and
 * bottom edges as outside, and `colliderect` asks for a strict overlap on
 * both axes, so rectangles that only touch along an edge do not collide.
 */
module Geometry {

  /** A rectangle given by its top-left corner, width and height. */
  datatype Rect = Rect(x: int, y: int, w: int, h: int)

  predicate Positive(r: Rect) {
    r.w > 0 && r.h > 0
  }

  /** The half-open point test `Rect.collidepoint`. */
  predicate CollidePoint(r: Rect, px: int, py: int) {
    r.x <= px < r.x + r.w && r.y <= py < r.y + r.h
  }

  /** The overlap test `Rect.colliderect`: strict overlap on both axes. */
  predicate CollideRect(a: Rect, b: Rect) {
    a.x < b.x + b.w && b.x < a.x + a.w && a.y < b.y + b.h && b.y < a.y + a.h
  }

  /** Overlap is symmetric. */
  lemma CollideRectSymmetric(a: Rect, b: Rect)
    ensures CollideRect(a, b) <==> CollideRect(b, a)
  {
  }

  /**
   * An independent reading of `colliderect` for rectangles of positive
   * size: they overlap exactly when some pixel lies inside both of them.
   */
  lemma CollideRectIffSharedPixel(a: Rect, b: Rect)
    requires Positive(a) && Positive(b)
    ensures CollideRect(a, b) <==>
            exists px, py :: CollidePoint(a, px, py) && CollidePoint(b, px, py)
  {
    if CollideRect(a, b) {
      var px := if a.x < b.x then b.x else a.x;
      var py := if a.y < b.y then b.y else a.y;
      assert CollidePoint(a, px, py) && CollidePoint(b, px, py);
    }
  }

  /** Rectangles that meet only along a vertical or horizontal edge do not collide. */
  lemma TouchingEdgesDoNotCollide(a: Rect, b: Rect)
    requires a.x + a.w == b.x || b.x + b.w == a.x || a.y + a.h == b.y || b.y + b.h == a.y
    ensures !CollideRect(a, b)
  {
  }

  /** A rectangle of positive size inside another one collides with it. */
  lemma ContainedCollides(outer: Rect, inner: Rect)
    requires Positive(inner)
    requires outer.x <= inner.x && inner.x + inner.w <= outer.x + outer.w
    requires outer.y <= inner.y && inner.y + inner.h <= outer.y + outer.h
    ensures CollideRect(outer, inner)
  {
  }
}

=== FILE: physics.dfy ===
/**
 * Catcher motion: horizontal steering and the discrete jump arc
 * (impulse JumpPower, gravity Gravity per frame, landing clamped to the
 * basket's base line, monkey moving in lockstep with the basket).
 */
module Physics {

  import opened Config
  import opened State

  function Min(a: int, b: int): int { if a <= b then a else b }
  function Max(a: int, b: int): int { if a <= b then b else a }

  /**
   * Horizontal steering of one playing frame. The key nudge and its clamp
   * to [ClampMargin, Width - ClampMargin] are computed first, then the
   * pointer's x overwrites them, so the keys have no effect.
   */
  function Steer(g: Game, left: bool, right: bool, pointerX: int): (r: Game)
    ensures r == g.(unitX := pointerX)
  {
    var nudged := g.unitX - (if left then MoveSpeed else 0) + (if right then MoveSpeed else 0);
    var clamped := Max(ClampMargin, Min(nudged, Width - ClampMargin));
    g.(unitX := clamped).(unitX := pointerX)
  }

  /** The space key starts a jump only from the ground: there is no double jump. */
  function TriggerJump(g: Game, space: bool): (r: Game)
    ensures g.isJumping || !space ==> r == g
    ensures space && !g.isJumping ==> r.isJumping && r.velocity == JumpPower
    ensures r.basketY == g.basketY && r.monkeyY == g.monkeyY
  {
    if space && !g.isJumping then g.(velocity := JumpPower, isJumping := true) else g
  }

  /**
   * One frame of the jump: gravity is added to the velocity, the velocity
   * to both sprites' y, and reaching or passing the base line lands the
   * catcher at rest. A catcher that is not jumping does not move.
   */
  function JumpTick(g: Game): (r: Game)
    ensures !g.isJumping ==> r == g
    ensures g.isJumping ==> r.basketY <= BasketBaseY
    ensures g.isJumping ==> (r.isJumping <==> g.basketY + g.velocity + Gravity < BasketBaseY)
    ensures g.isJumping && !r.isJumping ==> AtRest(r)
    ensures g.isJumping && r.isJumping ==>
              r.velocity == g.velocity + Gravity && r.basketY == g.basketY + r.velocity
              && r.basketY < BasketBaseY
    ensures Lockstep(g) ==> Lockstep(r)
    ensures r.inGame == g.inGame && r.paused == g.paused && r.showAbout == g.showAbout
    ensures r.coconuts == g.coconuts && r.score == g.score && r.unitX == g.unitX
  {
    if !g.isJumping then g
    else
      var v := g.velocity + Gravity;
      var basket := g.basketY + v;
      var monkey := g.monkeyY + v;
      if basket >= BasketBaseY then
        g.(basketY := BasketBaseY, monkeyY := MonkeyBaseY, velocity := 0, isJumping := false)
      else
        g.(basketY := basket, monkeyY := monkey, velocity := v)
  }

  /** n consecutive frames of jump motion. */
  function JumpTicks(g: Game, n: nat): Game {
    if n == 0 then g else JumpTick(JumpTicks(g, n - 1))
  }

  /** The frame-boundary jump invariant survives a trigger followed by a tick. */
  lemma JumpFramePreservesInv(g: Game, space: bool)
    requires JumpInv(g)
    ensures JumpInv(JumpTick(TriggerJump(g, space)))
  {
  }

  /**
   * The arc of a jump from rest: n frames after the trigger (n <= 28) the
   * catcher is still airborne with velocity JumpPower + n, and its height
   * above the base line is n * (29 - n) / 2.
   */
  lemma {:induction false} JumpArc(g: Game, n: nat)
    requires AtRest(g)
    requires n <= 28
    ensures JumpTicks(TriggerJump(g, true), n).isJumping
    ensures JumpTicks(TriggerJump(g, true), n).velocity == JumpPower + n
    ensures 2 * (BasketBaseY - JumpTicks(TriggerJump(g, true), n).basketY) == n * (29 - n)
  {
    if n > 0 {
      JumpArc(g, n - 1);
      var m := n - 1;
      var prev := JumpTicks(TriggerJump(g, true), m);
      assert JumpTicks(TriggerJump(g, true), n) == JumpTick(prev);
      ArcStep(m);
    }
  }

  /** The arithmetic of one step along the arc: heights n * (29 - n) / 2 differ by the velocity. */
  lemma ArcStep(m: nat)
    requires m < 28
    ensures (m + 1) * (29 - (m + 1)) == m * (29 - m) - 2 * (JumpPower + m + Gravity)
    ensures (m + 1) * (29 - (m + 1)) > 0
  {
  }

  /**
   * A jump from rest lands exactly on the base line on the 29th frame after
   * the trigger and not before: the catcher is airborne for frames 1 to 28.
   */
  lemma JumpLandsAfter29Frames(g: Game)
    requires AtRest(g) && Lockstep(g)
    ensures forall n: nat :: 1 <= n <= 28 ==> JumpTicks(TriggerJump(g, true), n).isJumping
    ensures AtRest(JumpTicks(TriggerJump(g, true), 29))
  {
    forall n: nat | 1 <= n <= 28
      ensures JumpTicks(TriggerJump(g, true), n).isJumping
    {
      JumpArc(g, n);
    }
    JumpArc(g, 28);
  }
}

=== FILE: state.dfy ===
/**
 * The game's global state as one immutable record, the session reset, the
 * derived mode (stage select, playing, paused, about) and the invariant
 * every reachable state satisfies.
 */
module State {

  import opened Wrappers
  import opened Config
  import opened Geometry

  /** A falling coconut: the top-left corner of its 40 by 40 box. */
  datatype Coconut = Coconut(x: int, y: int)

  datatype Game = Game(
    inGame: bool,
    paused: bool,
    showAbout: bool,
    running: bool,
    currentStage: Option<Stage>,
    score: nat,
    selectedOption: MenuIndex,
    unitX: int,
    basketY: int,
    monkeyY: int,
    velocity: int,
    isJumping: bool,
    coconuts: seq<Coconut>,
    /** The interval the spawn timer is armed with, in milliseconds. */
    spawnInterval: int)

  /** The state before the main loop starts: stage select, catcher centred and at rest. */
  function Init(): (r: Game)
    ensures ModeOf(r) == StageSelect && r.running && r.currentStage.None?
    ensures r.score == 0 && r.coconuts == [] && r.selectedOption == 0
    ensures r.unitX == Width / 2 && AtRest(r)
    ensures r.spawnInterval == InitialSpawnInterval
  {
    Game(false, false, false, true, None, 0, 0, Width / 2, BasketBaseY, MonkeyBaseY,
         0, false, [], InitialSpawnInterval)
  }

  /** The collision box of the basket. */
  function BasketRect(g: Game): Rect {
    Rect(g.unitX - BasketOffsetX, g.basketY, BasketWidth, BasketHeight)
  }

  /** The collision box of a coconut. */
  function CoconutRect(c: Coconut): Rect {
    Rect(c.x, c.y, CoconutSize, CoconutSize)
  }

  /** The interval the spawn timer should be armed with for the chosen stage. */
  function TimerFor(stage: Option<Stage>): int {
    match stage
    case None => InitialSpawnInterval
    case Some(s) => SpawnInterval(s)
  }

  /**
   * The catcher is at rest on its base line: not jumping, no velocity,
   * basket and monkey on their base rows.
   */
  predicate AtRest(g: Game) {
    !g.isJumping && g.velocity == 0 && g.basketY == BasketBaseY && g.monkeyY == MonkeyBaseY
  }

  /** The monkey sprite moves in lockstep with the basket. */
  predicate Lockstep(g: Game) {
    g.monkeyY - MonkeyBaseY == g.basketY - BasketBaseY
  }

  /**
   * `reset_game(stage)`: starts a fresh session for the stage's spawn
   * interval. Mode flags other than in_game, the chosen stage and the menu
   * cursor are left as they were.
   */
  function Reset(g: Game, stage: Stage): (r: Game)
    ensures r.inGame && r.score == 0 && r.coconuts == [] && r.unitX == Width / 2
    ensures AtRest(r) && Lockstep(r)
    ensures r.spawnInterval == SpawnInterval(stage)
    ensures r.paused == g.paused && r.showAbout == g.showAbout && r.running == g.running
    ensures r.currentStage == g.currentStage && r.selectedOption == g.selectedOption
  {
    g.(score := 0, coconuts := [], unitX := Width / 2, basketY := BasketBaseY,
       monkeyY := MonkeyBaseY, velocity := 0, isJumping := false,
       spawnInterval := SpawnInterval(stage), inGame := true)
  }

  /** Resetting twice is resetting once: the session is rebuilt from nothing but the stage. */
  lemma ResetIdempotent(g: Game, stage: Stage)
    ensures Reset(Reset(g, stage), stage) == Reset(g, stage)
  {
  }

  /** The four modes of the game, derived from the flags. */
  datatype Mode = StageSelect | Playing | Paused | About

  function ModeOf(g: Game): Mode {
    if !g.inGame then StageSelect
    else if g.showAbout then About
    else if g.paused then Paused
    else Playing
  }

  /** Flags of the mode machine that every reachable state satisfies. */
  predicate ModeInv(g: Game) {
    && !(g.paused && g.showAbout)
    && (g.paused ==> g.inGame)
    && (g.showAbout ==> g.inGame)
    && (g.inGame ==> g.currentStage.Some?)
    && g.spawnInterval == TimerFor(g.currentStage)
    && (!g.inGame ==> g.score == 0 && g.coconuts == [])
  }

  /**
   * The jump invariant at frame boundaries: the basket never ends a frame
   * below its base line, the monkey follows it, and a catcher that is not
   * jumping is at rest.
   */
  predicate JumpInv(g: Game) {
    && g.basketY <= BasketBaseY
    && Lockstep(g)
    && (!g.isJumping ==> AtRest(g))
    && (g.isJumping ==> g.basketY < BasketBaseY)
  }

  /** A live coconut was spawned inside [SpawnMinX, SpawnMaxX] and has not yet fallen past the window. */
  predicate CoconutInv(c: Coconut) {
    SpawnMinX <= c.x <= SpawnMaxX && SpawnY <= c.y <= Height
  }

  predicate CoconutsInv(cs: seq<Coconut>) {
    forall i :: 0 <= i < |cs| ==> CoconutInv(cs[i])
  }

  predicate Inv(g: Game) {
    ModeInv(g) && JumpInv(g) && CoconutsInv(g.coconuts)
  }

  /** The initial state satisfies the invariant and is in stage select. */
  lemma InitInv()
    ensures Inv(Init()) && ModeOf(Init()) == StageSelect
  {
  }

  /**
   * Under the invariant the flags determine exactly one mode: paused and
   * show_about are never both set, and stage select is exactly "not in game".
   */
  lemma ModeMatchesFlags(g: Game)
    requires ModeInv(g)
    ensures ModeOf(g) == StageSelect <==> !g.inGame
    ensures ModeOf(g) == Paused <==> g.paused
    ensures ModeOf(g) == About <==> g.showAbout
    ensures ModeOf(g) == Playing <==> g.inGame && !g.paused && !g.showAbout
  {
  }

  /**
   * A reset keeps the invariant when the state it starts from already has
   * the stage it is reset with, as both callers arrange.
   */
  lemma ResetInv(g: Game, stage: Stage)
    requires !(g.paused && g.showAbout)
    requires g.currentStage == Some(stage)
    ensures Inv(Reset(g, stage))
  {
  }
}

=== FILE: wrappers.dfy ===
/** The optional value used for the game's "no stage chosen yet" state. */
module Wrappers {

  datatype Option<+T> = None | Some(value: T)
}
